=== FILE: README.md ===
# Library circulation — a Dafny model

This project models the circulation core of a small library web application
(Next.js route handlers over MongoDB). It covers:

- the catalog: books with a title, an author, an `available` flag and an
  optional `borrower`;
- the reservation ledger: reserving a book (acquire) and returning a
  reservation (release);
- the borrow ledger: listing open borrows and closing one;
- the flag-only borrow route, which lends and frees a book by changing the
  book alone;
- the pure computations of three pages: the dashboard figures and row
  flags, the return page's figures and due countdown, and the borrow page's
  filter, sort, figures and pre-request checks.

The database is a value `Store.Library` of three maps keyed by document id.
Each handler that changes the store is a pure function from the state, the
request's JSON body and, where the handler reads the clock, the instant
`now`, to a `Store.Step`. A step holds the HTTP response and the new state.
The three listing handlers (`BooksRoute.ListBooks`,
`ReservationRoute.ListReservations`, `BorrowedBooksRoute.ListOpenBorrows`)
are functions from the state and the query string to the map of listed
documents.
JSON objects are `map<string, string>`. A field counts as present the way
JavaScript truthiness does: it is there and it is not empty. Instants are
integers of milliseconds. `new Date(text)` is an abstract parameter
`parse: string -> Option<Millis>`, where `None` stands for NaN. The id the
database assigns to a new document is a parameter, required to be unused.

The central invariant is `Store.Consistent`:
- every open reservation references a stored book;
- no book has two open reservations;
- a book is unavailable exactly when one open reservation references it.

A second invariant concerns each ledger's return stamps. `Store.Stamped`
says a record carries a return instant exactly when it is marked returned.
`Store.Chronological` says no record was returned before it was created.
The reservation ledger keeps both. Closing a borrow sets the flag without
an instant, so it breaks `Stamped` on the borrow ledger.

Reserving, returning a reservation and creating a book preserve `Store.Consistent`. The
three routes that change a book's flag without a reservation break it:
- the flag-only borrow POST, from every consistent state in which it succeeds;
- the flag-only borrow PUT and the borrowed-books POST, from every
  consistent state in which the book they free is held by a reservation.

In these places the model follows the code, even where a lending system might be
expected to behave otherwise:

- A due date equal to `now` is accepted: the check is `parsedDueDate < new Date()`.
- Every refusal of a reservation is a 400, also for a missing or held book.
- Reservation and borrow records are two collections with the same fields. Both use `Models.Entry`.
- A closed borrow never records a return instant.
- The borrow page computes its figures over the books in view, after the
  filter: under "Available only" the borrowed figure is always 0, under
  "Checked out" the available figure is always 0, and "Total titles" counts
  only the books in view.
- No route lists entries by status or sorts them by creation time. The
  borrowed-books listing always drops returned borrows, whatever `status`
  the caller sends.

## Model

| member | source | states |
|---|---|---|
| `Models.MakeBook` | lib/models/Book.ts:10-15 | a book document is accepted exactly when title and author are non-empty; it starts available with no borrower |
| `Models.MakeEntry` | lib/models/Reservation.ts:12-19 | a loan record (reservation or borrow, same schema) is accepted exactly when email, book and due date are given; it is stamped with the creation instant, not returned, with no return instant; lib/models/Borrow.ts:12-19 declares the same fields and defaults |
| `BooksRoute.ListBooks` | app/api/books/route.ts:5-9 | the listing holds every stored book, unchanged, and no other |
| `BooksRoute.SearchIgnored` | app/api/books/route.ts:5-8 | the handler reads no query, so every query string yields the same listing |
| `BooksRoute.CreateBook` | app/api/books/route.ts:11-20 | 400 with no change unless title and author are both present; otherwise exactly one new book, available and without borrower, is added under the new id and returned, and nothing else changes |
| `ReservationRoute.ListReservations` | app/api/reservation/route.ts:6-14 | a reservation is listed iff it belongs to the given user, or any user when the parameter is empty; returned reservations are listed too |
| `ReservationRoute.ValidateDueDate` | app/api/reservation/route.ts:16-21 | an instant comes back iff the field is non-empty and parses, and it is the parsed one |
| `ReservationRoute.Reserve` | app/api/reservation/route.ts:23-59 | only 200 or 400; every refusal leaves the state unchanged; the four checks apply in source order, each with its message; a due date equal to now passes; success marks just that book unavailable and adds exactly one open reservation with the given email, book, due date and creation instant now |
| `ReturnRoute.ReturnReservation` | app/api/return/route.ts:6-23 | succeeds iff the id names an open reservation; a refusal is 400 with no change; success closes exactly that reservation with return instant now and frees its book when the book is still stored, and changes nothing else when it is not |
| `BorrowedBooksRoute.ListOpenBorrows` | app/api/borrowedbooks/route.ts:6-14 | a borrow is listed iff it is not returned and, when an email is given, belongs to that user |
| `BorrowedBooksRoute.OtherParametersIgnored` | app/api/borrowedbooks/route.ts:9-11 | adding or changing any query parameter other than `userEmail` leaves the listing unchanged |
| `BorrowedBooksRoute.DashboardListingIsOpenOnly` | app/dashboard/page.tsx:39 | the dashboard's `?status=all` request lists every open borrow and never a returned one |
| `BorrowedBooksRoute.ReturnBorrow` | app/api/borrowedbooks/route.ts:16-32 | succeeds iff the id names an open borrow; a refusal is 400 with no change; success marks it returned but leaves its return instant as it was, and frees its book when stored |
| `BorrowRoute.BorrowBook` | app/api/borrow/route.ts:5-22 | 400 for a missing id or borrower, 404 for an unknown book, 409 for an unavailable one, each with no change; success makes just that book unavailable with the given borrower and creates no loan record |
| `BorrowRoute.FreeBook` | app/api/borrow/route.ts:24-38 | 400 without an id, 404 for an unknown book; otherwise the book becomes available with no borrower whatever its prior state |
| `BorrowRoute.FreeBookIdempotent` | app/api/borrow/route.ts:34-37 | freeing twice gives the same response and state as freeing once |
| `BorrowRoute.BorrowTwiceConflicts` | app/api/borrow/route.ts:15-21 | right after a successful borrow, the same request answers 409 |
| `BorrowRoute.BorrowThenFree` | app/api/borrow/route.ts:18-35 | borrow then free restores the book to available with no borrower and changes nothing else |
| `Circulation.ReserveOpens` | app/api/reservation/route.ts:48-57 | after a successful reservation from a consistent state, the book's only open reservation is the new one, and every other book's open reservations are unchanged |
| `Circulation.ReservePreserves` | app/api/reservation/route.ts:48-57 | reserving keeps the circulation invariant |
| `Circulation.ReturnCloses` | app/api/return/route.ts:9-15 | a successful return removes exactly the returned reservation from the open reservations of every book |
| `Circulation.ReturnPreserves` | app/api/return/route.ts:9-21 | returning a reservation keeps the circulation invariant |
| `Circulation.CreateBookPreserves` | app/api/books/route.ts:17-18 | adding a book keeps the circulation invariant |
| `Circulation.SecondReserveRefused` | app/api/reservation/route.ts:49-54 | after a successful reservation, any otherwise valid reservation of the same book is refused as not available, with no change |
| `Circulation.ReserveThenReturn` | app/api/return/route.ts:13-21 | reserving then returning that reservation restores the catalog exactly, and keeps the reservation as returned with the return instant |
| `Circulation.ReservationStaysListed` | app/api/reservation/route.ts:6-14 | a new reservation appears open in its user's listing; after it is returned the listing still holds it, marked returned with the return instant, and holds exactly the same ids |
| `Circulation.ReturnTwiceRefused` | app/api/return/route.ts:10-11 | a second return of the same reservation is refused with no change |
| `Circulation.ReturnBorrowTwiceRefused` | app/api/borrowedbooks/route.ts:19-22 | a second close of the same borrow is refused with no change |
| `Circulation.FreeBookBreaksInvariant` | app/api/borrow/route.ts:34-36 | freeing a reserved book from a consistent state leaves an inconsistent one: the book is available while its reservation stays open |
| `Circulation.BorrowBookBreaksInvariant` | app/api/borrow/route.ts:18-20 | a successful flag-only borrow from a consistent state leaves a book unavailable with no open reservation |
| `Circulation.ReturnBorrowBreaksInvariant` | app/api/borrowedbooks/route.ts:26-30 | closing a borrow whose book is reserved frees the book while its reservation stays open |
| `Circulation.ReserveKeepsStamped` | app/api/reservation/route.ts:56-57 | reserving keeps the reservation ledger stamped and chronological: the new record is open with no return instant |
| `Circulation.ReturnKeepsStamped` | app/api/return/route.ts:13-15 | returning a reservation keeps the ledger stamped, since the flag and the instant are set together; when the request's instant is no earlier than any reservation's creation, no return precedes its creation |
| `Circulation.ReturnBorrowUnstamps` | app/api/borrowedbooks/route.ts:23-24 | from a stamped borrow ledger, every successful close leaves a record marked returned with no return instant |
| `Circulation.TwoReadersOneBook` | app/api/reservation/route.ts:47-57 | one reader reserves a book, a second is refused while it is held, and succeeds after the first reservation is returned |
| `Seqs.SortBy` | app/borrow/page.tsx:50 | sorting returns a permutation of its input with every adjacent pair in comparator order |
| `DashboardPage.Stats` | app/dashboard/page.tsx:133-149 | active plus completed equals all loans; overdue loans are at most the active ones; the totals are the list lengths |
| `DashboardPage.Row` | app/dashboard/page.tsx:365-403 | the row badge shows exactly when the loan is counted overdue; "Mark returned" shows exactly for unreturned loans, so every overdue row offers it |
| `DashboardPage.OverdueBoundaries` | app/dashboard/page.tsx:138-141 | overdue iff not returned, due date present and strictly before now; a loan due exactly now, or returned, is not overdue |
| `DashboardPage.StatusAllShowsNoReturns` | app/dashboard/page.tsx:36-45 | over the listing the dashboard actually receives, completed returns are always 0 and active loans equal all loans |
| `ReturnPage.Stats` | app/return/page.tsx:91-102 | active is the number of listed loans and overdue is at most that |
| `ReturnPage.NextDueIsEarliest` | app/return/page.tsx:94-100 | the next due date is absent iff no loan has one; otherwise it is some loan's due date and no loan is due earlier |
| `ReturnPage.OverdueAgreesOnOpenLoans` | app/return/page.tsx:93 | the page's overdue test ignores `returned`, yet on a listing of open loans it counts the same as the dashboard |
| `ReturnPage.CeilDays` | app/return/page.tsx:107 | the day count is the least whole number of days covering the difference |
| `ReturnPage.CountdownAt` | app/return/page.tsx:106-110 | "Due today" from the due instant until one day after it; "Due in N days" while the due instant is still ahead; "N days overdue" once a full day has passed; N is the difference rounded up to whole days (ahead) or down (overdue) |
| `ReturnPage.DueCountdown` | app/return/page.tsx:104-111 | nothing exactly when there is no due date; otherwise the rendered countdown, which is "Due today" exactly from the due instant until one day after it; "Due in N days" while the due instant is still ahead; "N days overdue" once a full day has passed |
| `ReturnPage.SingularDay` | app/return/page.tsx:108-110 | the text says "day" rather than "days" exactly when the count is one |
| `ReturnPage.LateTodayShowsDueToday` | app/return/page.tsx:104-111 | a loan less than a day past due is flagged overdue on both pages and reads "Due today" |
| `BorrowPage.ApplyFilter` | app/borrow/page.tsx:47-49 | 'all' keeps every book; 'available' keeps exactly the available books and 'borrowed' exactly the others, each as often as listed |
| `BorrowPage.FetchView` | app/borrow/page.tsx:42-53 | the view is a permutation of the filtered books, adjacent books in order of the chosen field |
| `BorrowPage.Stats` | app/borrow/page.tsx:109-114 | available plus borrowed equals the total, and the borrowed figure is exactly the number of unavailable books |
| `BorrowPage.CatalogFiguresMatchStore` | app/borrow/page.tsx:46-53 | under the 'all' filter and either sort, over the catalog listing with every stored book listed once, the figures computed at lines 109-114 give the number of stored books as the total and exactly the number of stored books marked unavailable as the borrowed figure |
| `BorrowPage.FiguresFollowFilter` | app/borrow/page.tsx:109-114 | the figures are computed over the filtered view: under 'available' the borrowed figure is 0 and the total is the number of available books; under 'borrowed' the available figure is 0 and the total is the number of unavailable books |
| `BorrowPage.SelectionIsAvailable` | app/borrow/page.tsx:226-231 | after any series of clicks, a selected book is one that was clicked while available |
| `BorrowPage.HandleBorrow` | app/borrow/page.tsx:79-96 | a request is sent exactly when a book is selected and both the due date and the email are non-empty; nothing happens without a selection; the body carries the book id and no `borrower` |
| `BorrowPage.PageBorrowAlwaysRefused` | app/borrow/page.tsx:92-96 | every request the page sends is refused by the borrow route with 400 and changes nothing |
| `BorrowPage.HandleBorrowIntended` | app/borrow/page.tsx:79-96 | the same checks, and the body names the signed-in user as `borrower` |
| `BorrowPage.IntendedBorrowLends` | app/api/borrow/route.ts:7-21 | with the intended body, confirming a stored available book lends it to the signed-in user |

## Left out

- Database access, `dbConnect`, and a save that fails for lack of connectivity are not modelled. Each handler is one step, and concurrency is not modelled: the code has no locking to describe.
- `.populate('bookId')` on the listings is not modelled. It replaces a record's book id by the book document for display only.
- A non-empty id that is not a well-formed object id makes `findById` throw (a 500). The model treats every such id as an unknown key.
- JSON fields that are not strings, such as a numeric `dueDate` or a `bookId` object, are not modelled.
- `Circulation.ReturnKeepsStamped`: request instants are free parameters, and the model does not require a later request to carry a later instant. A return whose `now` is earlier than the reservation's creation would stamp a return before the creation. So `Chronological` is proved only for requests no earlier than every creation instant.
- The reservation's creation stamp and the route's `new Date()` are read a few milliseconds apart. Both are `now` here.
- The listings are maps, so they carry no order. MongoDB's natural order is not modelled.
- The sign-in and sign-up routes are not part of this model. They rest on bcrypt.
- The users and database-test routes, and the admin, sign-up, welcome and home pages, are not part of this model. They carry no circulation logic.
- `app/api/books/[id].ts` (book edit and delete) is not part of this model.
- Fetching, React state, rendering, `localStorage` and navigation in the pages are not modelled.
- Date formatting is not modelled: `toLocaleString`, `toLocaleDateString`, and the borrow page's `minDueDate` calendar arithmetic.
- Page rows whose due date is present but does not parse are not modelled. Every row the routes return carries a stored, valid date.
- `Math.ceil` over floating-point division is modelled as exact integer ceiling division. Rounding at realistic magnitudes is not modelled.
- `BorrowPage.FetchView`: the comparator is an abstract collation that orders every pair, so the contract states adjacent pairs in order and a permutation. It does not state stability, or order between non-adjacent books when the collation is not transitive.
- `Seqs.SortBy`: the same weakening as `FetchView`. It states adjacent order only, and no stability.

## Findings

| source | as written | input that shows it | evidently intended | confidence | as-written member | corrected member |
|---|---|---|---|---|---|---|
| app/borrow/page.tsx:92-96 | the page posts `{ userEmail, bookId, dueDate }`, but the borrow route reads `{ bookId, borrower }` (app/api/borrow/route.ts:7-9) | any confirmed borrow, e.g. selected book `b1`, due date `2030-01-01`, email `a@x` | either the page names the signed-in user as `borrower`, so an available book is lent (the reading modelled), or the route is meant to take the page's body, which is exactly the required fields of the Borrow schema (lib/models/Borrow.ts:13-16), and record a Borrow from `userEmail`, `bookId` and `dueDate`; no route shown creates a Borrow, yet the dashboard and the return page list Borrows | high (not executed) | `BorrowPage.PageBorrowAlwaysRefused` | `BorrowPage.IntendedBorrowLends` |

=== FILE: books_route.dfy ===
/** The catalog route: list every book, or create one. */
module BooksRoute {
  import opened Prelude
  import opened Models
  import opened Store

  /** GET: every stored book. The handler reads no request, so a query string
      such as `?q=...` has no effect on the answer. */
  function ListBooks(lib: Library, query: Json): (r: map<Id, Book>)
    ensures r.Keys == lib.books.Keys
    ensures forall id :: id in r ==> r[id] == lib.books[id]
  {
    lib.books
  }

  /** The search text the pages send is ignored: any two queries list the same books. */
  lemma SearchIgnored(lib: Library, q1: Json, q2: Json)
    ensures ListBooks(lib, q1) == ListBooks(lib, q2)
  {
  }

  /** POST `{ title, author }`; `newId` is the id the database assigns. */
  function CreateBook(lib: Library, body: Json, newId: Id): (r: Step)
    requires newId !in lib.books
    ensures r.response.status == OK <==> Truthy(Field(body, "title")) && Truthy(Field(body, "author"))
    ensures r.response.status != OK ==> r == Step(Reply(BadRequest, "Title and author required."), lib)
    ensures r.response.status == OK ==>
      && r.after.books.Keys == lib.books.Keys + {newId}
      && (forall id :: id in lib.books ==> r.after.books[id] == lib.books[id])
      && r.after.books[newId] == Book(body["title"], body["author"], true, None)
      && r.response == Response(OK, Document(newId, r.after.books[newId]))
      && r.after.reservations == lib.reservations
      && r.after.borrows == lib.borrows
  {
    var title := Field(body, "title");
    var author := Field(body, "author");
    if !Truthy(title) || !Truthy(author) then
      Step(Reply(BadRequest, "Title and author required."), lib)
    else
      match MakeBook(title, author)
      case Some(book) =>
        Step(Response(OK, Document(newId, book)), lib.(books := lib.books[newId := book]))
      case None =>
        // the schema's validator refuses the document: the exception
        // escapes the handler
        Step(Reply(ServerError, "Book validation failed."), lib)
  }
}

=== FILE: borrow_page.dfy ===
/** The borrow page: filtering and sorting the catalog, its availability
    figures, selecting a book, and the checks before a borrow request. */
module BorrowPage {
  import opened Prelude
  import opened Seqs
  import opened Views
  import Store
  import BorrowRoute
  import BooksRoute

  /** The three views of the catalog the filter selector offers. */
  datatype CatalogFilter = AllTitles | AvailableOnly | CheckedOut

  /** The two sort orders the sort selector offers. */
  datatype SortField = ByTitle | ByAuthor

  predicate IsAvailable(b: BookRow)
  {
    b.available
  }

  predicate IsBorrowed(b: BookRow)
  {
    !b.available
  }

  /** The filter step of `fetchBooks`: 'available' keeps exactly the available
      books, 'borrowed' exactly the unavailable ones, 'all' every book, each
      as often as it was listed. */
  function ApplyFilter(rows: seq<BookRow>, f: CatalogFilter): (r: seq<BookRow>)
    ensures f == AllTitles ==> r == rows
    ensures f == AvailableOnly ==> forall b :: multiset(r)[b] == if b.available then multiset(rows)[b] else 0
    ensures f == CheckedOut ==> forall b :: multiset(r)[b] == if !b.available then multiset(rows)[b] else 0
  {
    var data := if f == AvailableOnly then Filter(rows, IsAvailable) else rows;
    if f == CheckedOut then Filter(data, IsBorrowed) else data
  }

  /** The text a sorter compares. */
  function SortKey(field: SortField, b: BookRow): string
  {
    match field
    case ByTitle => b.title
    case ByAuthor => b.author
  }

  /** The filter and sort steps of `fetchBooks`. `collate` stands for
      `localeCompare(x, y) <= 0`, any comparator that orders every pair. The
      result is a permutation of the filtered books, each adjacent pair in
      order of the chosen field. */
  function FetchView(rows: seq<BookRow>, f: CatalogFilter, field: SortField, collate: (string, string) -> bool): (r: seq<BookRow>)
    requires Connex(collate)
    ensures multiset(r) == multiset(ApplyFilter(rows, f))
    ensures forall i :: 0 < i < |r| ==> collate(SortKey(field, r[i - 1]), SortKey(field, r[i]))
  {
    var le := (a: BookRow, b: BookRow) => collate(SortKey(field, a), SortKey(field, b));
    assert Connex(le) by {
      forall a: BookRow, b: BookRow
        ensures le(a, b) || le(b, a)
      {
        assert collate(SortKey(field, a), SortKey(field, b)) || collate(SortKey(field, b), SortKey(field, a));
      }
    }
    SortBy(ApplyFilter(rows, f), le)
  }

  datatype CatalogStats = CatalogStats(total: nat, availableCount: nat, borrowedCount: nat)

  /** `stats`: the borrowed figure is computed as total minus available, and
      it is exactly the number of unavailable books. */
  function Stats(rows: seq<BookRow>): (s: CatalogStats)
    ensures s.total == |rows|
    ensures s.availableCount == Count(rows, IsAvailable)
    ensures s.availableCount + s.borrowedCount == s.total
    ensures s.borrowedCount == Count(rows, IsBorrowed)
  {
    CountComplement(rows, IsAvailable, IsBorrowed);
    var availableCount := Count(rows, IsAvailable);
    CatalogStats(|rows|, availableCount, |rows| - availableCount)
  }

  /** The rows the page builds from the catalog listing, one per id of `ids`,
      in that order. */
  function CatalogRows(lib: Store.Library, ids: seq<Id>): (r: seq<BookRow>)
    requires forall i :: 0 <= i < |ids| ==> ids[i] in lib.books
    ensures |r| == |ids|
    ensures forall i :: 0 <= i < |r| ==> r[i] == BookRowOf(ids[i], lib.books[ids[i]])
  {
    seq(|ids|, i requires 0 <= i < |ids| => BookRowOf(ids[i], lib.books[ids[i]]))
  }

  /** Distinct ids are as many as the set they form. */
  lemma {:induction false} DistinctIdsCount(ids: seq<Id>)
    requires forall i, j :: 0 <= i < j < |ids| ==> ids[i] != ids[j]
    ensures |ids| == |set id | id in ids|
  {
    if ids != [] {
      var rest := ids[1..];
      DistinctIdsCount(rest);
      assert ids[0] !in rest;
      assert (set id | id in ids) == {ids[0]} + (set id | id in rest);
    }
  }

  /** Over distinct stored ids, the page's borrowed count is the number of
      those ids whose book is unavailable. */
  lemma {:induction false} CatalogRowsBorrowed(lib: Store.Library, ids: seq<Id>)
    requires forall i :: 0 <= i < |ids| ==> ids[i] in lib.books
    requires forall i, j :: 0 <= i < j < |ids| ==> ids[i] != ids[j]
    ensures Count(CatalogRows(lib, ids), IsBorrowed) == |set id | id in ids && !lib.books[id].available|
  {
    if ids != [] {
      var rest := ids[1..];
      CatalogRowsBorrowed(lib, rest);
      var rows := CatalogRows(lib, ids);
      assert rows[1..] == CatalogRows(lib, rest);
      assert Count(rows, IsBorrowed) == (if IsBorrowed(rows[0]) then 1 else 0) + Count(rows[1..], IsBorrowed);
      assert ids[0] !in rest;
      var held := set id | id in ids && !lib.books[id].available;
      var heldRest := set id | id in rest && !lib.books[id].available;
      if lib.books[ids[0]].available {
        assert held == heldRest;
      } else {
        assert held == {ids[0]} + heldRest;
      }
    }
  }

  /** The page's figures under the 'all' filter, whatever the sort: with
      every stored book listed once, "Total titles" is the number of stored
      books and "Currently borrowed" exactly the number of stored books
      marked unavailable. */
  lemma CatalogFiguresMatchStore(lib: Store.Library, query: Json, ids: seq<Id>, field: SortField,
                                 collate: (string, string) -> bool)
    requires Connex(collate)
    requires forall i :: 0 <= i < |ids| ==> ids[i] in BooksRoute.ListBooks(lib, query)
    requires forall i, j :: 0 <= i < j < |ids| ==> ids[i] != ids[j]
    requires forall id :: id in BooksRoute.ListBooks(lib, query) ==> id in ids
    ensures forall i :: 0 <= i < |ids| ==> ids[i] in lib.books
    ensures var s := Stats(FetchView(CatalogRows(lib, ids), AllTitles, field, collate));
      && s.total == |lib.books|
      && s.borrowedCount == |set id | id in lib.books && !lib.books[id].available|
  {
    var rows := CatalogRows(lib, ids);
    var view := FetchView(rows, AllTitles, field, collate);
    assert |view| == |multiset(view)| == |multiset(rows)| == |rows|;
    CountPermutation(view, rows, IsBorrowed);
    DistinctIdsCount(ids);
    CatalogRowsBorrowed(lib, ids);
    assert (set id | id in ids) == lib.books.Keys;
    assert (set id | id in ids && !lib.books[id].available) == (set id | id in lib.books && !lib.books[id].available);
  }

  /** The figures are computed over the books in view: under "Available only"
      the borrowed figure is always 0, under "Checked out" the available figure
      is always 0, and in both the total counts only the books in view. */
  lemma FiguresFollowFilter(rows: seq<BookRow>, field: SortField, collate: (string, string) -> bool)
    requires Connex(collate)
    ensures var s := Stats(FetchView(rows, AvailableOnly, field, collate));
      s.borrowedCount == 0 && s.total == Count(rows, IsAvailable)
    ensures var s := Stats(FetchView(rows, CheckedOut, field, collate));
      s.availableCount == 0 && s.total == Count(rows, IsBorrowed)
  {
    var avail := FetchView(rows, AvailableOnly, field, collate);
    var lent := FetchView(rows, CheckedOut, field, collate);
    CountPermutation(avail, Filter(rows, IsAvailable), IsBorrowed);
    CountPermutation(lent, Filter(rows, IsBorrowed), IsAvailable);
    FilterExcludes(rows, IsAvailable, IsBorrowed);
    FilterExcludes(rows, IsBorrowed, IsAvailable);
    assert |avail| == |multiset(avail)| == |multiset(Filter(rows, IsAvailable))| == |Filter(rows, IsAvailable)|;
    assert |lent| == |multiset(lent)| == |multiset(Filter(rows, IsBorrowed))| == |Filter(rows, IsBorrowed)|;
  }

  /** Clicking a book's "Select to borrow" button; the button is disabled
      for an unavailable book, so such a click changes nothing. */
  function Select(current: Option<BookRow>, clicked: BookRow): Option<BookRow>
  {
    if clicked.available then Some(clicked) else current
  }

  /** The selection after a series of clicks, starting from none. */
  function SelectAll(clicks: seq<BookRow>): Option<BookRow>
  {
    if clicks == [] then None else Select(SelectAll(clicks[..|clicks| - 1]), clicks[|clicks| - 1])
  }

  /** Whatever was clicked, the selected book is one that was available and
      was clicked. */
  lemma {:induction false} SelectionIsAvailable(clicks: seq<BookRow>)
    ensures SelectAll(clicks).Some? ==> SelectAll(clicks).value.available && SelectAll(clicks).value in clicks
  {
    if clicks != [] {
      SelectionIsAvailable(clicks[..|clicks| - 1]);
    }
  }

  /** What pressing "Confirm borrow" does: nothing, show an error, or send a
      request with the given JSON body. */
  datatype BorrowAttempt = Ignored | Refused(error: string) | Posted(body: Json)

  /** `handleBorrow` as written: silent with no selection, an error for an
      empty due date or an empty email (in that order), and otherwise a POST
      of `{ userEmail, bookId, dueDate }` to the borrow route. */
  function HandleBorrow(selected: Option<BookRow>, dueDate: string, userEmail: string): (r: BorrowAttempt)
    ensures r.Posted? <==> selected.Some? && dueDate != "" && userEmail != ""
    ensures selected.None? ==> r == Ignored
    ensures r.Posted? ==> "borrower" !in r.body && "bookId" in r.body && r.body["bookId"] == selected.value.id
  {
    if selected.None? then Ignored
    else if dueDate == "" then Refused("Please choose when you plan to return the book.")
    else if userEmail == "" then Refused("No borrower email found. Please log in again.")
    else Posted(map["userEmail" := userEmail, "bookId" := selected.value.id, "dueDate" := dueDate])
  }

  /** Every request the page sends is refused by the borrow route with 400,
      because the route reads `borrower`, a field the page never sends: the
      page can never lend a book. */
  lemma PageBorrowAlwaysRefused(lib: Store.Library, selected: Option<BookRow>, dueDate: string, userEmail: string)
    requires HandleBorrow(selected, dueDate, userEmail).Posted?
    ensures BorrowRoute.BorrowBook(lib, HandleBorrow(selected, dueDate, userEmail).body)
      == Store.Step(Store.Reply(BadRequest, BorrowRoute.MissingFields), lib)
  {
  }

  /** `handleBorrow` as evidently intended: the same checks, and the body also
      names the signed-in user as the `borrower` the route reads. */
  function HandleBorrowIntended(selected: Option<BookRow>, dueDate: string, userEmail: string): (r: BorrowAttempt)
    ensures r.Posted? <==> selected.Some? && dueDate != "" && userEmail != ""
    ensures selected.None? ==> r == Ignored
    ensures r.Posted? ==> "borrower" in r.body && r.body["borrower"] == userEmail && "bookId" in r.body && r.body["bookId"] == selected.value.id
  {
    if selected.None? then Ignored
    else if dueDate == "" then Refused("Please choose when you plan to return the book.")
    else if userEmail == "" then Refused("No borrower email found. Please log in again.")
    else Posted(map["userEmail" := userEmail, "bookId" := selected.value.id, "dueDate" := dueDate, "borrower" := userEmail])
  }

  /** With the intended body, confirming a stored, available book lends it to
      the signed-in user. */
  lemma IntendedBorrowLends(lib: Store.Library, selected: Option<BookRow>, dueDate: string, userEmail: string)
    requires HandleBorrowIntended(selected, dueDate, userEmail).Posted?
    requires selected.value.id != "" && selected.value.id in lib.books && lib.books[selected.value.id].available
    ensures var r := BorrowRoute.BorrowBook(lib, HandleBorrowIntended(selected, dueDate, userEmail).body);
      var b := selected.value.id;
      && r.response.status == OK
      && !r.after.books[b].available
      && r.after.books[b].borrower == Some(userEmail)
  {
  }
}

=== FILE: borrow_route.dfy ===
/** The flag-only borrow route: it lends and frees a book by changing the
    book alone, with no loan record. */
module BorrowRoute {
  import opened Prelude
  import opened Models
  import opened Store

  const MissingFields := "Book ID and borrower required."
  const BookNotFound := "Book not found."
  const AlreadyBorrowed := "Book already borrowed."

  /** POST `{ bookId, borrower }`: 400 when either is missing or empty, 404 for
      an unknown book, 409 for an unavailable one. Otherwise the book becomes
      unavailable and records the borrower; no other document changes. */
  function BorrowBook(lib: Library, body: Json): (r: Step)
    ensures r.response.status in {OK, BadRequest, NotFound, Conflict}
    ensures r.response.status != OK ==> r.after == lib
    ensures !Truthy(Field(body, "bookId")) || !Truthy(Field(body, "borrower")) ==>
      r.response == Reply(BadRequest, MissingFields)
    ensures Truthy(Field(body, "bookId")) && Truthy(Field(body, "borrower")) ==>
      var b := body["bookId"];
      && (b !in lib.books ==> r.response == Reply(NotFound, BookNotFound))
      && (b in lib.books && !lib.books[b].available ==> r.response == Reply(Conflict, AlreadyBorrowed))
      && (b in lib.books && lib.books[b].available ==>
            var lent := lib.books[b].(available := false, borrower := Some(body["borrower"]));
            && r.response == Response(OK, MessageAndDocument("Book borrowed successfully.", b, lent))
            && r.after == lib.(books := lib.books[b := lent]))
  {
    var bookId := Field(body, "bookId");
    var borrower := Field(body, "borrower");
    if !Truthy(bookId) || !Truthy(borrower) then
      Step(Reply(BadRequest, MissingFields), lib)
    else if bookId.value !in lib.books then
      Step(Reply(NotFound, BookNotFound), lib)
    else if !lib.books[bookId.value].available then
      Step(Reply(Conflict, AlreadyBorrowed), lib)
    else
      var lent := lib.books[bookId.value].(available := false, borrower := borrower);
      Step(Response(OK, MessageAndDocument("Book borrowed successfully.", bookId.value, lent)),
           lib.(books := lib.books[bookId.value := lent]))
  }

  /** PUT `{ bookId }`: 400 when it is missing or empty, 404 for an unknown
      book. Otherwise the book becomes available with no borrower, whatever
      its state and whatever reservation references it. */
  function FreeBook(lib: Library, body: Json): (r: Step)
    ensures r.response.status in {OK, BadRequest, NotFound}
    ensures r.response.status != OK ==> r.after == lib
    ensures !Truthy(Field(body, "bookId")) ==> r.response == Reply(BadRequest, "Book ID required.")
    ensures Truthy(Field(body, "bookId")) ==>
      var b := body["bookId"];
      && (b !in lib.books ==> r.response == Reply(NotFound, BookNotFound))
      && (b in lib.books ==>
            var freed := lib.books[b].(available := true, borrower := None);
            && r.response == Response(OK, MessageAndDocument("Book returned successfully.", b, freed))
            && r.after == lib.(books := lib.books[b := freed]))
  {
    var bookId := Field(body, "bookId");
    if !Truthy(bookId) then
      Step(Reply(BadRequest, "Book ID required."), lib)
    else if bookId.value !in lib.books then
      Step(Reply(NotFound, BookNotFound), lib)
    else
      var freed := lib.books[bookId.value].(available := true, borrower := None);
      Step(Response(OK, MessageAndDocument("Book returned successfully.", bookId.value, freed)),
           lib.(books := lib.books[bookId.value := freed]))
  }

  /** Freeing twice answers and leaves the state exactly as freeing once. */
  lemma FreeBookIdempotent(lib: Library, body: Json)
    ensures FreeBook(FreeBook(lib, body).after, body) == FreeBook(lib, body)
  {
  }

  /** Right after a successful borrow, a second borrow of the same book is
      refused with 409. */
  lemma BorrowTwiceConflicts(lib: Library, body: Json)
    requires BorrowBook(lib, body).response.status == OK
    ensures BorrowBook(BorrowBook(lib, body).after, body).response == Reply(Conflict, AlreadyBorrowed)
  {
  }

  /** Borrow then free restores the book to available with no borrower and
      changes nothing else. */
  lemma BorrowThenFree(lib: Library, body: Json)
    requires BorrowBook(lib, body).response.status == OK
    ensures var b := body["bookId"];
      FreeBook(BorrowBook(lib, body).after, body).after
        == lib.(books := lib.books[b := lib.books[b].(borrower := None)])
  {
  }
}

=== FILE: borrowedbooks_route.dfy ===
/** The borrowed-books route: list open borrows, and close one. */
module BorrowedBooksRoute {
  import opened Prelude
  import opened Models
  import opened Store

  /** GET `?userEmail=...`: the borrows not yet returned, restricted to that
      user when the parameter is non-empty. No other parameter is read. */
  function ListOpenBorrows(lib: Library, query: Json): (r: map<Id, Entry>)
    ensures forall id :: id in r <==>
      && id in lib.borrows
      && !lib.borrows[id].returned
      && (Truthy(Field(query, "userEmail")) ==> lib.borrows[id].userEmail == query["userEmail"])
    ensures forall id :: id in r ==> r[id] == lib.borrows[id]
  {
    var email := Field(query, "userEmail");
    if Truthy(email) then
      map id | id in lib.borrows && !lib.borrows[id].returned && lib.borrows[id].userEmail == email.value :: lib.borrows[id]
    else
      map id | id in lib.borrows && !lib.borrows[id].returned :: lib.borrows[id]
  }

  /** A query parameter other than `userEmail` (the dashboard's `status=all`,
      say) changes nothing in the listing. */
  lemma OtherParametersIgnored(lib: Library, query: Json, name: string, value: string)
    requires name != "userEmail"
    ensures ListOpenBorrows(lib, query[name := value]) == ListOpenBorrows(lib, query)
  {
  }

  /** The dashboard's request `?status=all` lists every open borrow of every
      user and no returned one. */
  lemma DashboardListingIsOpenOnly(lib: Library)
    ensures var r := ListOpenBorrows(lib, map["status" := "all"]);
      && (forall id :: id in r ==> !r[id].returned)
      && (forall id :: id in lib.borrows && !lib.borrows[id].returned ==> id in r)
  {
  }

  const InvalidBorrow := "Invalid borrow record."

  /** POST `{ borrowId }`. An unknown or already returned borrow is refused
      with no change. Otherwise the borrow is marked returned, with no return
      instant recorded, and its book, when still stored, becomes available. */
  function ReturnBorrow(lib: Library, body: Json): (r: Step)
    ensures r.response.status == OK || r.response.status == BadRequest
    ensures r.response.status == OK <==>
      "borrowId" in body && body["borrowId"] in lib.borrows && !lib.borrows[body["borrowId"]].returned
    ensures r.response.status != OK ==> r == Step(Reply(BadRequest, InvalidBorrow), lib)
    ensures r.response.status == OK ==>
      var id := body["borrowId"];
      var e := lib.borrows[id];
      && r.response == Reply(OK, "Book returned successfully.")
      && id in r.after.borrows
      && r.after.borrows[id].returned
      && r.after.borrows[id].returnedAt == e.returnedAt
      && r.after.borrows == lib.borrows[id := e.(returned := true)]
      && (e.bookId in lib.books ==> r.after.books == lib.books[e.bookId := lib.books[e.bookId].(available := true)])
      && (e.bookId !in lib.books ==> r.after.books == lib.books)
      && r.after.reservations == lib.reservations
  {
    var id := Field(body, "borrowId");
    if id.None? || id.value !in lib.borrows || lib.borrows[id.value].returned then
      Step(Reply(BadRequest, InvalidBorrow), lib)
    else
      var e := lib.borrows[id.value];
      var closed := lib.(borrows := lib.borrows[id.value := e.(returned := true)]);
      if e.bookId in lib.books then
        var book := lib.books[e.bookId];
        Step(Reply(OK, "Book returned successfully."), closed.(books := lib.books[e.bookId := book.(available := true)]))
      else
        Step(Reply(OK, "Book returned successfully."), closed)
  }
}

=== FILE: circulation.dfy ===
/** The circulation state machine across routes: which routes keep the
    invariant `Store.Consistent`, which break it, and the acquire/release
    round trip on the reservation ledger. */
module Circulation {
  import opened Prelude
  import opened Models
  import opened Store
  import BooksRoute
  import ReservationRoute
  import ReturnRoute
  import BorrowedBooksRoute
  import BorrowRoute

  /** A set of at most one element that holds `x` is `{x}`. */
  lemma AtMostOneHolding<T>(s: set<T>, x: T)
    requires |s| <= 1 && x in s
    ensures s == {x}
  {
    assert |s - {x}| == |s| - 1;
  }

  /** The empty database is consistent. */
  lemma EmptyConsistent()
    ensures Consistent(Empty)
  {
  }

  /** A successful reservation gives its book exactly one open reservation, the new one. */
  lemma ReserveOpens(lib: Library, body: Json, now: Millis, parse: string -> Option<Millis>, newId: Id)
    requires Consistent(lib)
    requires newId !in lib.reservations
    requires ReservationRoute.Reserve(lib, body, now, parse, newId).response.status == OK
    ensures var after := ReservationRoute.Reserve(lib, body, now, parse, newId).after;
      && OpenReservations(after, body["bookId"]) == {newId}
      && forall b :: b != body["bookId"] ==> OpenReservations(after, b) == OpenReservations(lib, b)
  {
  }

  /** Reserving keeps the circulation invariant. */
  lemma ReservePreserves(lib: Library, body: Json, now: Millis, parse: string -> Option<Millis>, newId: Id)
    requires Consistent(lib)
    requires newId !in lib.reservations
    ensures Consistent(ReservationRoute.Reserve(lib, body, now, parse, newId).after)
  {
    var r := ReservationRoute.Reserve(lib, body, now, parse, newId);
    if r.response.status == OK {
      ReserveOpens(lib, body, now, parse, newId);
    }
  }

  /** A successful return takes its reservation out of its book's open set and
      leaves every other open set alone. */
  lemma ReturnCloses(lib: Library, body: Json, now: Millis)
    requires ReturnRoute.ReturnReservation(lib, body, now).response.status == OK
    ensures var id := body["reservationId"];
      var after := ReturnRoute.ReturnReservation(lib, body, now).after;
      forall b :: OpenReservations(after, b) == OpenReservations(lib, b) - {id}
  {
  }

  /** Returning a reservation keeps the circulation invariant. */
  lemma ReturnPreserves(lib: Library, body: Json, now: Millis)
    requires Consistent(lib)
    ensures Consistent(ReturnRoute.ReturnReservation(lib, body, now).after)
  {
    var r := ReturnRoute.ReturnReservation(lib, body, now);
    if r.response.status == OK {
      var id := body["reservationId"];
      var e := lib.reservations[id];
      ReturnCloses(lib, body, now);
      assert id in OpenReservations(lib, e.bookId);
      AtMostOneHolding(OpenReservations(lib, e.bookId), id);
      assert OpenReservations(r.after, e.bookId) == {};
      forall b | b in r.after.books
        ensures |OpenReservations(r.after, b)| <= 1
        ensures !r.after.books[b].available <==> |OpenReservations(r.after, b)| == 1
      {
        if b != e.bookId {
          assert id !in OpenReservations(lib, b);
          assert OpenReservations(r.after, b) == OpenReservations(lib, b);
        }
      }
    }
  }

  /** Adding a book to the catalog keeps the circulation invariant. */
  lemma CreateBookPreserves(lib: Library, body: Json, newId: Id)
    requires Consistent(lib)
    requires newId !in lib.books
    ensures Consistent(BooksRoute.CreateBook(lib, body, newId).after)
  {
  }

  /** Once a reservation holds a book, a second reservation of it is refused
      with "Book not available." and changes nothing: at most one open
      reservation per book on this path. */
  lemma SecondReserveRefused(lib: Library, body1: Json, body2: Json, now1: Millis, now2: Millis,
                             parse: string -> Option<Millis>, id1: Id, id2: Id)
    requires id1 !in lib.reservations
    requires ReservationRoute.Reserve(lib, body1, now1, parse, id1).response.status == OK
    requires id2 !in ReservationRoute.Reserve(lib, body1, now1, parse, id1).after.reservations
    requires Truthy(Field(body2, "userEmail")) && "bookId" in body2 && body2["bookId"] == body1["bookId"]
    requires var due := ReservationRoute.ValidateDueDate(Field(body2, "dueDate"), parse); due.Some? && now2 <= due.value
    ensures var after := ReservationRoute.Reserve(lib, body1, now1, parse, id1).after;
      ReservationRoute.Reserve(after, body2, now2, parse, id2)
        == Step(Reply(BadRequest, ReservationRoute.Unavailable), after)
  {
  }

  /** Reserve then return the new reservation: the catalog is exactly as it
      was, and the reservation is kept as returned, stamped with the return
      instant. */
  lemma ReserveThenReturn(lib: Library, body: Json, now: Millis, later: Millis,
                          parse: string -> Option<Millis>, newId: Id)
    requires newId !in lib.reservations
    requires ReservationRoute.Reserve(lib, body, now, parse, newId).response.status == OK
    ensures var reserved := ReservationRoute.Reserve(lib, body, now, parse, newId).after;
      var returned := ReturnRoute.ReturnReservation(reserved, map["reservationId" := newId], later);
      && returned.response.status == OK
      && returned.after.books == lib.books
      && returned.after.books[body["bookId"]].available
      && returned.after.reservations[newId].returned
      && returned.after.reservations[newId].returnedAt == Some(later)
  {
  }

  /** The user's reservation listing shows a new reservation as open, and
      still shows it, now returned, after it is returned: returning removes
      nothing from the listing. */
  lemma ReservationStaysListed(lib: Library, body: Json, now: Millis, later: Millis,
                               parse: string -> Option<Millis>, newId: Id)
    requires newId !in lib.reservations
    requires ReservationRoute.Reserve(lib, body, now, parse, newId).response.status == OK
    ensures var query := map["userEmail" := body["userEmail"]];
      var reserved := ReservationRoute.Reserve(lib, body, now, parse, newId).after;
      var returned := ReturnRoute.ReturnReservation(reserved, map["reservationId" := newId], later).after;
      var before := ReservationRoute.ListReservations(reserved, query);
      var after := ReservationRoute.ListReservations(returned, query);
      && newId in before && !before[newId].returned && before[newId].bookId == body["bookId"]
      && newId in after && after[newId].returned && after[newId].returnedAt == Some(later)
      && after.Keys == before.Keys
  {
  }

  /** Returning the same reservation twice fails the second time, with no change. */
  lemma ReturnTwiceRefused(lib: Library, body: Json, now: Millis, later: Millis)
    requires ReturnRoute.ReturnReservation(lib, body, now).response.status == OK
    ensures var after := ReturnRoute.ReturnReservation(lib, body, now).after;
      ReturnRoute.ReturnReservation(after, body, later) == Step(Reply(BadRequest, ReturnRoute.InvalidReservation), after)
  {
  }

  /** Closing the same borrow twice fails the second time, with no change. */
  lemma ReturnBorrowTwiceRefused(lib: Library, body: Json)
    requires BorrowedBooksRoute.ReturnBorrow(lib, body).response.status == OK
    ensures var after := BorrowedBooksRoute.ReturnBorrow(lib, body).after;
      BorrowedBooksRoute.ReturnBorrow(after, body) == Step(Reply(BadRequest, BorrowedBooksRoute.InvalidBorrow), after)
  {
  }

  /** The flag-only PUT frees a book while its reservation is still open, so
      from any consistent state in which the book is reserved it leaves an
      inconsistent one. */
  lemma FreeBookBreaksInvariant(lib: Library, body: Json)
    requires Consistent(lib)
    requires Truthy(Field(body, "bookId")) && body["bookId"] in lib.books
    requires !lib.books[body["bookId"]].available
    ensures !Consistent(BorrowRoute.FreeBook(lib, body).after)
  {
  }

  /** The flag-only POST makes a book unavailable with no reservation, so from
      any consistent state it succeeds in it leaves an inconsistent one. */
  lemma BorrowBookBreaksInvariant(lib: Library, body: Json)
    requires Consistent(lib)
    requires BorrowRoute.BorrowBook(lib, body).response.status == OK
    ensures !Consistent(BorrowRoute.BorrowBook(lib, body).after)
  {
    var b := body["bookId"];
    var after := BorrowRoute.BorrowBook(lib, body).after;
    assert OpenReservations(after, b) == OpenReservations(lib, b);
    if x :| x in OpenReservations(lib, b) {
      AtMostOneHolding(OpenReservations(lib, b), x);
      assert false;
    }
  }

  /** Closing a borrow frees its book even when a reservation holds it, so
      from any consistent state in which the borrow's book is reserved it
      leaves an inconsistent one. */
  lemma ReturnBorrowBreaksInvariant(lib: Library, body: Json)
    requires Consistent(lib)
    requires BorrowedBooksRoute.ReturnBorrow(lib, body).response.status == OK
    requires var e := lib.borrows[body["borrowId"]]; e.bookId in lib.books && !lib.books[e.bookId].available
    ensures !Consistent(BorrowedBooksRoute.ReturnBorrow(lib, body).after)
  {
  }

  /** Reserving keeps the reservation ledger's return stamps: the new record
      is open and carries no return instant. */
  lemma ReserveKeepsStamped(lib: Library, body: Json, now: Millis, parse: string -> Option<Millis>, newId: Id)
    requires newId !in lib.reservations
    requires Stamped(lib.reservations) && Chronological(lib.reservations)
    ensures var after := ReservationRoute.Reserve(lib, body, now, parse, newId).after;
      Stamped(after.reservations) && Chronological(after.reservations)
  {
  }

  /** Returning a reservation keeps the return stamps, since it sets the
      instant along with the flag; and when the request comes no earlier than
      any reservation was created, no return precedes its creation. */
  lemma ReturnKeepsStamped(lib: Library, body: Json, now: Millis)
    requires Stamped(lib.reservations)
    ensures Stamped(ReturnRoute.ReturnReservation(lib, body, now).after.reservations)
    ensures Chronological(lib.reservations)
      && (forall id :: id in lib.reservations ==> lib.reservations[id].createdAt <= now)
      ==> Chronological(ReturnRoute.ReturnReservation(lib, body, now).after.reservations)
  {
  }

  /** Closing a borrow sets the flag but no return instant, so from any
      stamped borrow ledger a successful close leaves an unstamped one. */
  lemma ReturnBorrowUnstamps(lib: Library, body: Json)
    requires Stamped(lib.borrows)
    requires BorrowedBooksRoute.ReturnBorrow(lib, body).response.status == OK
    ensures !Stamped(BorrowedBooksRoute.ReturnBorrow(lib, body).after.borrows)
  {
    var id := body["borrowId"];
    var after := BorrowedBooksRoute.ReturnBorrow(lib, body).after.borrows;
    assert after[id].returned && after[id].returnedAt.None?;
  }

  /** Two readers and one book: the first reservation holds the book, the
      second reader is refused while it does, and succeeds once the first
      reservation is returned. */
  lemma TwoReadersOneBook(lib: Library, x: Id, alice: string, bob: string, dueText: string,
                          now: Millis, later: Millis, parse: string -> Option<Millis>, first: Id, second: Id)
    requires x != "" && x in lib.books && lib.books[x].available
    requires alice != "" && bob != "" && dueText != ""
    requires parse(dueText).Some? && now <= later <= parse(dueText).value
    requires first !in lib.reservations && second !in lib.reservations && first != second
    ensures var aliceAsks := map["userEmail" := alice, "bookId" := x, "dueDate" := dueText];
      var bobAsks := map["userEmail" := bob, "bookId" := x, "dueDate" := dueText];
      var s1 := ReservationRoute.Reserve(lib, aliceAsks, now, parse, first);
      var s2 := ReservationRoute.Reserve(s1.after, bobAsks, now, parse, second);
      var s3 := ReturnRoute.ReturnReservation(s1.after, map["reservationId" := first], later);
      var s4 := ReservationRoute.Reserve(s3.after, bobAsks, later, parse, second);
      && s1.response.status == OK && !s1.after.books[x].available
      && s2 == Step(Reply(BadRequest, ReservationRoute.Unavailable), s1.after)
      && s3.response.status == OK && s3.after.books[x].available
      && s4.response.status == OK && !s4.after.books[x].available
      && s4.after.reservations[second].userEmail == bob
  {
  }
}

=== FILE: dashboard_page.dfy ===
/** The dashboard's circulation figures and the per-row loan status. */
module DashboardPage {
  import opened Prelude
  import opened Models
  import opened Seqs
  import opened Views
  import Store
  import BorrowedBooksRoute

  /** The condition under which a loan is counted overdue: not returned, with
      a due date, and that due date strictly before `now`. */
  predicate CountedOverdue(l: LoanRow, now: Millis)
  {
    if l.returned || l.dueDate.None? then false else l.dueDate.value < now
  }

  predicate IsActive(l: LoanRow)
  {
    !l.returned
  }

  predicate IsReturned(l: LoanRow)
  {
    l.returned
  }

  datatype DashboardStats = DashboardStats(
    totalBooks: nat,
    activeLoans: nat,
    completedReturns: nat,
    totalLoans: nat,
    overdue: nat)

  /** `dashboardStats` at instant `now`: every loan is active or returned, and
      only active loans are overdue. */
  function Stats<B>(books: seq<B>, loans: seq<LoanRow>, now: Millis): (s: DashboardStats)
    ensures s.totalBooks == |books| && s.totalLoans == |loans|
    ensures s.activeLoans + s.completedReturns == s.totalLoans
    ensures s.overdue <= s.activeLoans
    ensures s.activeLoans == Count(loans, IsActive) && s.completedReturns == Count(loans, IsReturned)
    ensures s.overdue == Count(loans, l => CountedOverdue(l, now))
  {
    var overdue := l => CountedOverdue(l, now);
    CountComplement(loans, IsActive, IsReturned);
    CountMonotonic(loans, overdue, IsActive);
    DashboardStats(|books|, Count(loans, IsActive), Count(loans, IsReturned), |loans|, Count(loans, overdue))
  }

  /** What one row of the loan table shows besides its text. */
  datatype RowFlags = RowFlags(overdueBadge: bool, markReturned: bool)

  /** The Overdue badge and the "Mark returned" button of one row. The badge
      uses the count's condition, and an overdue loan can always be marked
      returned. */
  function Row(l: LoanRow, now: Millis): (f: RowFlags)
    ensures f.overdueBadge <==> CountedOverdue(l, now)
    ensures f.markReturned <==> !l.returned
    ensures f.overdueBadge ==> f.markReturned
  {
    RowFlags(!l.returned && l.dueDate.Some? && l.dueDate.value < now, !l.returned)
  }

  /** A returned loan is never overdue, whatever its due date. A loan due
      exactly now is not overdue yet. */
  lemma OverdueBoundaries(l: LoanRow, now: Millis)
    ensures l.returned ==> !CountedOverdue(l, now)
    ensures l.dueDate == Some(now) ==> !CountedOverdue(l, now)
    ensures CountedOverdue(l, now) <==> !l.returned && l.dueDate.Some? && l.dueDate.value < now
  {
  }

  /** The dashboard lists the answer of `GET /api/borrowedbooks?status=all`,
      which holds open borrows only: it always shows zero completed returns
      and as many active loans as loans. */
  lemma StatusAllShowsNoReturns<B>(lib: Store.Library, books: seq<B>, entries: seq<Entry>, now: Millis)
    requires forall i :: 0 <= i < |entries| ==>
      entries[i] in BorrowedBooksRoute.ListOpenBorrows(lib, map["status" := "all"]).Values
    ensures var s := Stats(books, LoanRows(entries), now);
      s.completedReturns == 0 && s.activeLoans == s.totalLoans
  {
  }
}

=== FILE: models.dfy ===
/** The three document schemas: a book, and the loan record shared by the
    reservation and the borrow collections. */
module Models {
  import opened Prelude

  /** A book: display metadata, whether it may be lent, and who holds it when
      it was lent through the flag-only borrow route. */
  datatype Book = Book(title: string, author: string, available: bool, borrower: Option<string>)

  /** A loan record. Reservations and borrows have the same fields;
      `createdAt` is `reservedAt` for the former and `borrowedAt` for the latter. */
  datatype Entry = Entry(
    userEmail: string,
    bookId: Id,
    createdAt: Millis,
    dueDate: Millis,
    returned: bool,
    returnedAt: Option<Millis>)

  /** `new Book({ title, author }).save()`: the schema's `required` validator
      refuses a missing or empty string; `available` defaults to true and
      `borrower` to null. `None` is the validation error. */
  function MakeBook(title: Option<string>, author: Option<string>): (r: Option<Book>)
    ensures r.Some? <==> Truthy(title) && Truthy(author)
    ensures r.Some? ==> r.value.title == title.value && r.value.author == author.value
    ensures r.Some? ==> r.value.available && r.value.borrower.None?
  {
    if !Truthy(title) || !Truthy(author) then None
    else Some(Book(title.value, author.value, true, None))
  }

  /** `new Reservation({ userEmail, bookId, dueDate }).save()` (and the same for
      a borrow) at instant `now`: `userEmail`, `bookId` and `dueDate` are
      required; the creation stamp defaults to `now`, `returned` to false and
      `returnedAt` stays unset. `None` is the validation error. */
  function MakeEntry(userEmail: Option<string>, bookId: Option<Id>, dueDate: Option<Millis>, now: Millis): (r: Option<Entry>)
    ensures r.Some? <==> Truthy(userEmail) && bookId.Some? && dueDate.Some?
    ensures r.Some? ==> r.value.userEmail == userEmail.value && r.value.bookId == bookId.value
    ensures r.Some? ==> r.value.dueDate == dueDate.value && r.value.createdAt == now
    ensures r.Some? ==> !r.value.returned && r.value.returnedAt.None?
  {
    if !Truthy(userEmail) || bookId.None? || dueDate.None? then None
    else Some(Entry(userEmail.value, bookId.value, now, dueDate.value, false, None))
  }

  /** An open loan: not yet returned. */
  predicate IsOpen(e: Entry)
  {
    !e.returned
  }
}

=== FILE: prelude.dfy ===
/** Vocabulary shared by every module: optional values, identifiers, instants
    and the JSON objects that requests carry. */
module Prelude {

  /** A value that may be absent: `undefined` or `null` on the JavaScript side. */
  datatype Option<T> = None | Some(value: T)

  /** The identifier of a stored document (a MongoDB object id, as a string). */
  type Id = string

  /** An instant or a duration, in milliseconds since the epoch. */
  type Millis = int

  /** A parsed JSON request body or a URL query string, restricted to string
      values: field name to value. */
  type Json = map<string, string>

  /** `const { key } = body`: the field's value when it is present. */
  function Field(body: Json, key: string): Option<string>
  {
    if key in body then Some(body[key]) else None
  }

  /** JavaScript truthiness of a string field: present and not empty. */
  predicate Truthy(v: Option<string>)
  {
    v.Some? && v.value != ""
  }

  /** HTTP status codes the routes answer with. */
  const OK: int := 200
  const BadRequest: int := 400
  const NotFound: int := 404
  const Conflict: int := 409
  /** An exception escaping a route handler becomes a server error. */
  const ServerError: int := 500
}

=== FILE: reservation_route.dfy ===
/** The reservation route: list reservations, and reserve a book (the
    acquire transition of the reservation ledger). */
module ReservationRoute {
  import opened Prelude
  import opened Models
  import opened Store

  /** GET `?userEmail=...`: every reservation of that user when the parameter
      is non-empty, every reservation otherwise. Returned reservations are
      listed as well as open ones. */
  function ListReservations(lib: Library, query: Json): (r: map<Id, Entry>)
    ensures forall id :: id in r <==>
      && id in lib.reservations
      && (Truthy(Field(query, "userEmail")) ==> lib.reservations[id].userEmail == query["userEmail"])
    ensures forall id :: id in r ==> r[id] == lib.reservations[id]
  {
    var email := Field(query, "userEmail");
    if Truthy(email) then
      map id | id in lib.reservations && lib.reservations[id].userEmail == email.value :: lib.reservations[id]
    else
      lib.reservations
  }

  /** `validateDueDate`: no instant for a missing or empty field, nor for text
      that parses to NaN; the parsed instant otherwise. `parse` is `new Date(s)`
      with NaN as `None`. */
  function ValidateDueDate(dueDate: Option<string>, parse: string -> Option<Millis>): (r: Option<Millis>)
    ensures r.Some? <==> Truthy(dueDate) && parse(dueDate.value).Some?
    ensures r.Some? ==> r == parse(dueDate.value)
  {
    if !Truthy(dueDate) then None
    else parse(dueDate.value)
  }

  /** The message of each way a reservation request fails. */
  const MissingFields := "User email and book are required."
  const InvalidDate := "A valid return date is required."
  const PastDate := "Return date must be in the future."
  const Unavailable := "Book not available."

  /** POST `{ userEmail, bookId, dueDate }` at instant `now`. The checks run in
      order: the email and the book id present, the due date valid, not strictly before `now`,
      the book stored and available. On success the book becomes unavailable
      and one open reservation is added under `newId`, the id the database
      assigns. */
  function Reserve(lib: Library, body: Json, now: Millis, parse: string -> Option<Millis>, newId: Id): (r: Step)
    requires newId !in lib.reservations
    ensures r.response.status == OK || r.response.status == BadRequest
    ensures r.response.status != OK ==> r.after == lib
    ensures !Truthy(Field(body, "userEmail")) || !Truthy(Field(body, "bookId")) ==>
      r.response == Reply(BadRequest, MissingFields)
    ensures Truthy(Field(body, "userEmail")) && Truthy(Field(body, "bookId")) ==>
      var due := ValidateDueDate(Field(body, "dueDate"), parse);
      var b := body["bookId"];
      && (due.None? ==> r.response == Reply(BadRequest, InvalidDate))
      && (due.Some? && due.value < now ==> r.response == Reply(BadRequest, PastDate))
      && (due.Some? && now <= due.value && (b !in lib.books || !lib.books[b].available) ==>
            r.response == Reply(BadRequest, Unavailable))
      && (due.Some? && now <= due.value && b in lib.books && lib.books[b].available ==>
            && r.response == Reply(OK, "Book reserved successfully.")
            && r.after.books == lib.books[b := lib.books[b].(available := false)]
            && r.after.reservations == lib.reservations[newId := Entry(body["userEmail"], b, now, due.value, false, None)]
            && r.after.borrows == lib.borrows)
  {
    var userEmail := Field(body, "userEmail");
    var bookId := Field(body, "bookId");
    if !Truthy(userEmail) || !Truthy(bookId) then
      Step(Reply(BadRequest, MissingFields), lib)
    else
      match ValidateDueDate(Field(body, "dueDate"), parse)
      case None => Step(Reply(BadRequest, InvalidDate), lib)
      case Some(due) =>
        if due < now then
          Step(Reply(BadRequest, PastDate), lib)
        else if bookId.value !in lib.books || !lib.books[bookId.value].available then
          Step(Reply(BadRequest, Unavailable), lib)
        else
          var book := lib.books[bookId.value];
          var marked := lib.(books := lib.books[bookId.value := book.(available := false)]);
          match MakeEntry(userEmail, bookId, Some(due), now)
          case Some(entry) =>
            Step(Reply(OK, "Book reserved successfully."), marked.(reservations := lib.reservations[newId := entry]))
          case None =>
            // the book was already saved when the reservation's validator
            // refuses it; the exception escapes the handler
            Step(Reply(ServerError, "Reservation validation failed."), marked)
  }
}

=== FILE: return_page.dfy ===
/** The return page's summary figures and the due countdown of each loan. */
module ReturnPage {
  import opened Prelude
  import opened Seqs
  import opened Views
  import DashboardPage

  /** The page's overdue test: a due date strictly before `now`. Unlike the
      dashboard it does not look at `returned`. */
  predicate FlaggedOverdue(l: LoanRow, now: Millis)
  {
    l.dueDate.Some? && l.dueDate.value < now
  }

  predicate HasDue(l: LoanRow)
  {
    l.dueDate.Some?
  }

  /** The instant the sort compares (rows without a due date are filtered out
      before sorting). */
  function DueKey(l: LoanRow): Millis
  {
    match l.dueDate
    case Some(d) => d
    case None => 0
  }

  /** The comparator `(a, b) => due(a) - due(b)`, read as "may precede". */
  predicate DueOrder(a: LoanRow, b: LoanRow)
  {
    DueKey(a) <= DueKey(b)
  }

  /** The due date shown as "Next due date": the first row after sorting the
      rows that have one by due date; `None` is the dash. */
  function NextDue(rows: seq<LoanRow>): Option<Millis>
  {
    var sorted := SortBy(Filter(rows, HasDue), DueOrder);
    if sorted == [] then None else sorted[0].dueDate
  }

  datatype ReturnStats = ReturnStats(active: nat, overdue: nat, nextDue: Option<Millis>)

  /** `stats` at instant `now`: all listed loans are active, and the overdue
      ones are among them. */
  function Stats(rows: seq<LoanRow>, now: Millis): (s: ReturnStats)
    ensures s.active == |rows|
    ensures s.overdue <= s.active
    ensures s.overdue == Count(rows, l => FlaggedOverdue(l, now))
    ensures s.nextDue == NextDue(rows)
  {
    ReturnStats(|rows|, Count(rows, l => FlaggedOverdue(l, now)), NextDue(rows))
  }

  /** In a sequence sorted by due date, the first row is due no later than any other. */
  lemma {:induction false} SortedHeadEarliest(xs: seq<LoanRow>, j: nat)
    requires SortedBy(xs, DueOrder)
    requires j < |xs|
    ensures DueKey(xs[0]) <= DueKey(xs[j])
  {
    if j > 0 {
      SortedHeadEarliest(xs, j - 1);
      assert DueOrder(xs[j - 1], xs[j]);
    }
  }

  /** The next due date is absent exactly when no row has a due date; when
      present it is the due date of some row and no row is due earlier. */
  lemma NextDueIsEarliest(rows: seq<LoanRow>)
    ensures NextDue(rows).None? <==> forall i :: 0 <= i < |rows| ==> rows[i].dueDate.None?
    ensures NextDue(rows).Some? ==> exists i :: 0 <= i < |rows| && rows[i].dueDate == NextDue(rows)
    ensures NextDue(rows).Some? ==>
      forall i :: 0 <= i < |rows| && rows[i].dueDate.Some? ==> NextDue(rows).value <= rows[i].dueDate.value
  {
    var dated := Filter(rows, HasDue);
    var sorted := SortBy(dated, DueOrder);
    forall i | 0 <= i < |rows| && rows[i].dueDate.Some?
      ensures rows[i] in sorted
    {
      assert multiset(dated)[rows[i]] > 0;
      assert rows[i] in multiset(sorted);
    }
    if sorted != [] {
      assert sorted[0] in multiset(sorted);
      assert sorted[0] in dated;
      FilterMembers(rows, HasDue, sorted[0]);
      forall i | 0 <= i < |rows| && rows[i].dueDate.Some?
        ensures sorted[0].dueDate.value <= rows[i].dueDate.value
      {
        var j :| 0 <= j < |sorted| && sorted[j] == rows[i];
        SortedHeadEarliest(sorted, j);
      }
    }
  }

  /** On the page's listing (open loans only) the page's overdue figure agrees
      with the dashboard's. */
  lemma OverdueAgreesOnOpenLoans<B>(books: seq<B>, rows: seq<LoanRow>, now: Millis)
    requires forall i :: 0 <= i < |rows| ==> !rows[i].returned
    ensures Stats(rows, now).overdue == DashboardPage.Stats(books, rows, now).overdue
  {
    CountAgree(rows, l => FlaggedOverdue(l, now), l => DashboardPage.CountedOverdue(l, now));
  }

  /** The length of a day, in milliseconds. */
  const DayMillis: int := 1000 * 60 * 60 * 24

  /** `Math.ceil(diff / DayMillis)`: the least whole number of days covering `diff`. */
  function CeilDays(diff: int): (days: int)
    ensures (days - 1) * DayMillis < diff <= days * DayMillis
  {
    -((-diff) / DayMillis)
  }

  /** What the countdown says, before it is written out. */
  datatype Countdown = DaysOverdue(n: nat) | DueToday | DueIn(n: nat)

  /** The countdown for a loan due at `due`, read at instant `now`: whole
      days to go (rounded up) while `due` is still ahead; "today" from `due`
      until one day after it; whole days late (rounded down) once a full day
      has passed since `due`. */
  function CountdownAt(due: Millis, now: Millis): (c: Countdown)
    ensures c.DaysOverdue? <==> due - now <= -DayMillis
    ensures c.DueToday? <==> -DayMillis < due - now <= 0
    ensures c.DueIn? <==> 0 < due - now
    ensures c.DaysOverdue? ==> c.n >= 1 && c.n * DayMillis <= now - due < (c.n + 1) * DayMillis
    ensures c.DueIn? ==> c.n >= 1 && (c.n - 1) * DayMillis < due - now <= c.n * DayMillis
  {
    var days := CeilDays(due - now);
    if days < 0 then DaysOverdue(-days)
    else if days == 0 then DueToday
    else DueIn(days)
  }

  /** A decimal digit. */
  function DigitChar(d: nat): char
    requires d < 10
  {
    "0123456789"[d]
  }

  /** A number written in decimal, as a template literal writes it. */
  function Decimal(n: nat): (r: string)
    ensures |r| >= 1
    ensures forall i :: 0 <= i < |r| ==> '0' <= r[i] <= '9'
  {
    if n < 10 then [DigitChar(n)] else Decimal(n / 10) + [DigitChar(n % 10)]
  }

  /** The plural suffix: none for exactly one day. */
  function Plural(n: nat): string
  {
    if n == 1 then "" else "s"
  }

  function Render(c: Countdown): string
  {
    match c
    case DaysOverdue(n) => Decimal(n) + " day" + Plural(n) + " overdue"
    case DueToday => "Due today"
    case DueIn(n) => "Due in " + Decimal(n) + " day" + Plural(n)
  }

  /** `dueCountdown`: nothing without a due date, otherwise the written
      countdown; it reads "Due today" exactly from the due instant until one
      day after it. */
  function DueCountdown(due: Option<Millis>, now: Millis): (r: Option<string>)
    ensures r.None? <==> due.None?
    ensures r.Some? ==> r.value == Render(CountdownAt(due.value, now))
    ensures r.Some? ==> (r.value == "Due today" <==> -DayMillis < due.value - now <= 0)
  {
    match due
    case None => None
    case Some(d) =>
      var c := CountdownAt(d, now);
      assert c.DaysOverdue? ==> Render(c)[0] == Decimal(c.n)[0] != 'D';
      Some(Render(c))
  }

  /** The singular "day" is written exactly when the number of days is one. */
  lemma SingularDay(n: nat)
    ensures Render(DaysOverdue(n)) == Decimal(n) + " day overdue" <==> n == 1
    ensures Render(DueIn(n)) == "Due in " + Decimal(n) + " day" <==> n == 1
  {
  }

  /** A loan less than a day past due is flagged overdue and at the same time
      reads "Due today". */
  lemma LateTodayShowsDueToday(due: Millis, now: Millis)
    requires now - DayMillis < due < now
    ensures FlaggedOverdue(LoanRow(false, Some(due)), now)
    ensures DashboardPage.CountedOverdue(LoanRow(false, Some(due)), now)
    ensures DueCountdown(Some(due), now) == Some("Due today")
  {
  }
}

=== FILE: return_route.dfy ===
/** The return route: close an open reservation and free its book (the
    release transition of the reservation ledger). */
module ReturnRoute {
  import opened Prelude
  import opened Models
  import opened Store

  const InvalidReservation := "Invalid reservation."

  /** POST `{ reservationId }` at instant `now`. An unknown id, or one whose
      reservation is already returned, is refused with no change. Otherwise
      the reservation is marked returned and stamped with `now`, and the book
      it references, when it is still stored, becomes available. */
  function ReturnReservation(lib: Library, body: Json, now: Millis): (r: Step)
    ensures r.response.status == OK || r.response.status == BadRequest
    ensures r.response.status == OK <==>
      "reservationId" in body && body["reservationId"] in lib.reservations
      && !lib.reservations[body["reservationId"]].returned
    ensures r.response.status != OK ==> r == Step(Reply(BadRequest, InvalidReservation), lib)
    ensures r.response.status == OK ==>
      var id := body["reservationId"];
      var e := lib.reservations[id];
      && r.response == Reply(OK, "Book returned successfully.")
      && r.after.reservations == lib.reservations[id := e.(returned := true, returnedAt := Some(now))]
      && (e.bookId in lib.books ==> r.after.books == lib.books[e.bookId := lib.books[e.bookId].(available := true)])
      && (e.bookId !in lib.books ==> r.after.books == lib.books)
      && r.after.borrows == lib.borrows
  {
    var id := Field(body, "reservationId");
    if id.None? || id.value !in lib.reservations || lib.reservations[id.value].returned then
      Step(Reply(BadRequest, InvalidReservation), lib)
    else
      var e := lib.reservations[id.value];
      var closed := lib.(reservations := lib.reservations[id.value := e.(returned := true, returnedAt := Some(now))]);
      if e.bookId in lib.books then
        var book := lib.books[e.bookId];
        Step(Reply(OK, "Book returned successfully."), closed.(books := lib.books[e.bookId := book.(available := true)]))
      else
        Step(Reply(OK, "Book returned successfully."), closed)
  }
}

=== FILE: seqs.dfy ===
/** The array operations the pages use: `filter`, `filter(...).length` and
    `sort` with a comparator. */
module Seqs {

  /** `xs.filter(p)`: the elements of `xs` that satisfy `p`, in their order.
      Each value occurs in the result exactly as often as in `xs` when it
      satisfies `p`, and not at all otherwise. */
  function Filter<T(==,!new)>(xs: seq<T>, p: T -> bool): (r: seq<T>)
    ensures |r| <= |xs|
    ensures forall x :: multiset(r)[x] == if p(x) then multiset(xs)[x] else 0
  {
    if xs == [] then []
    else
      assert xs == [xs[0]] + xs[1..];
      if p(xs[0]) then [xs[0]] + Filter(xs[1..], p) else Filter(xs[1..], p)
  }

  /** `xs.filter(p).length`. */
  function Count<T(==,!new)>(xs: seq<T>, p: T -> bool): nat
  {
    |Filter(xs, p)|
  }

  /** Every element the filter keeps satisfies the predicate and comes from `xs`. */
  lemma FilterMembers<T(!new)>(xs: seq<T>, p: T -> bool, x: T)
    requires x in Filter(xs, p)
    ensures p(x) && x in xs
  {
  }

  /** Counting a predicate and its complement splits the sequence:
      `count(p) + count(q) == xs.length` when `q` is `!p`. */
  lemma {:induction false} CountComplement<T(!new)>(xs: seq<T>, p: T -> bool, q: T -> bool)
    requires forall x :: q(x) <==> !p(x)
    ensures Count(xs, p) + Count(xs, q) == |xs|
  {
    if xs != [] {
      CountComplement(xs[1..], p, q);
    }
  }

  /** A weaker predicate counts at least as many elements. */
  lemma {:induction false} CountMonotonic<T(!new)>(xs: seq<T>, p: T -> bool, q: T -> bool)
    requires forall x :: p(x) ==> q(x)
    ensures Count(xs, p) <= Count(xs, q)
  {
    if xs != [] {
      CountMonotonic(xs[1..], p, q);
    }
  }

  /** Two predicates that agree on every element count the same. */
  lemma {:induction false} CountAgree<T(!new)>(xs: seq<T>, p: T -> bool, q: T -> bool)
    requires forall i :: 0 <= i < |xs| ==> (p(xs[i]) <==> q(xs[i]))
    ensures Count(xs, p) == Count(xs, q)
  {
    if xs != [] {
      CountAgree(xs[1..], p, q);
    }
  }

  /** Reordering a sequence does not change any count. */
  lemma CountPermutation<T(!new)>(xs: seq<T>, ys: seq<T>, p: T -> bool)
    requires multiset(xs) == multiset(ys)
    ensures Count(xs, p) == Count(ys, p)
  {
    assert multiset(Filter(xs, p)) == multiset(Filter(ys, p));
    assert |multiset(Filter(xs, p))| == |Filter(xs, p)|;
    assert |multiset(Filter(ys, p))| == |Filter(ys, p)|;
  }

  /** After filtering by `p`, a predicate that excludes `p` counts nothing. */
  lemma FilterExcludes<T(!new)>(xs: seq<T>, p: T -> bool, q: T -> bool)
    requires forall x :: p(x) ==> !q(x)
    ensures Count(Filter(xs, p), q) == 0
  {
    var r := Filter(Filter(xs, p), q);
    assert multiset(r) == multiset{};
    assert |multiset(r)| == |r|;
  }

  /** A comparator under which any two values are ordered one way or the other. */
  ghost predicate Connex<T(!new)>(le: (T, T) -> bool)
  {
    forall a, b :: le(a, b) || le(b, a)
  }

  /** Every adjacent pair is in order. */
  predicate SortedBy<T>(xs: seq<T>, le: (T, T) -> bool)
  {
    forall i :: 0 < i < |xs| ==> le(xs[i - 1], xs[i])
  }

  /** Inserts `x` into a sorted sequence before the first element it may precede. */
  function Insert<T(!new)>(x: T, xs: seq<T>, le: (T, T) -> bool): (r: seq<T>)
    requires Connex(le)
    requires SortedBy(xs, le)
    ensures multiset(r) == multiset(xs) + multiset{x}
    ensures SortedBy(r, le)
    ensures r[0] == x || (xs != [] && r[0] == xs[0])
  {
    if xs == [] then [x]
    else if le(x, xs[0]) then [x] + xs
    else
      assert xs == [xs[0]] + xs[1..];
      [xs[0]] + Insert(x, xs[1..], le)
  }

  /** `[...xs].sort(cmp)`: a permutation of `xs` in which every adjacent pair is
      in order. */
  function SortBy<T(!new)>(xs: seq<T>, le: (T, T) -> bool): (r: seq<T>)
    requires Connex(le)
    ensures multiset(r) == multiset(xs)
    ensures SortedBy(r, le)
  {
    if xs == [] then []
    else
      assert xs == [xs[0]] + xs[1..];
      Insert(xs[0], SortBy(xs[1..], le), le)
  }
}

=== FILE: store.dfy ===
/** The persistent state the routes share (three collections) and the shape
    of a route's answer. Each route handler is modelled as one step from a
    state to a response and a new state. */
module Store {
  import opened Prelude
  import opened Models

  /** The three collections, keyed by document id. */
  datatype Library = Library(
    books: map<Id, Book>,
    reservations: map<Id, Entry>,
    borrows: map<Id, Entry>)

  /** The JSON a route answers with: a `{ message }` object, a book document,
      or both together. */
  datatype Body =
    | Message(text: string)
    | Document(id: Id, book: Book)
    | MessageAndDocument(text: string, id: Id, book: Book)

  datatype Response = Response(status: int, body: Body)

  /** The outcome of one request: what the client sees and the state after. */
  datatype Step = Step(response: Response, after: Library)

  /** A response carrying only a message. */
  function Reply(status: int, text: string): Response
  {
    Response(status, Message(text))
  }

  /** The empty database. */
  const Empty: Library := Library(map[], map[], map[])

  /** Ids of the open reservations that reference book `bookId`. */
  function OpenReservations(lib: Library, bookId: Id): set<Id>
  {
    set id | id in lib.reservations && IsOpen(lib.reservations[id]) && lib.reservations[id].bookId == bookId
  }

  /** The circulation invariant on the reservation path: every open
      reservation references a stored book, no book has two open
      reservations, and a book is unavailable exactly when one open
      reservation references it. */
  predicate Consistent(lib: Library)
  {
    && (forall id :: id in lib.reservations && IsOpen(lib.reservations[id]) ==> lib.reservations[id].bookId in lib.books)
    && (forall b :: b in lib.books ==>
          && |OpenReservations(lib, b)| <= 1
          && (!lib.books[b].available <==> |OpenReservations(lib, b)| == 1))
  }

  /** The return stamp of a ledger: a record carries a return instant exactly
      when it is marked returned. */
  predicate Stamped(ledger: map<Id, Entry>)
  {
    forall id :: id in ledger ==> (ledger[id].returned <==> ledger[id].returnedAt.Some?)
  }

  /** No record of a ledger was returned before it was created. */
  predicate Chronological(ledger: map<Id, Entry>)
  {
    forall id :: id in ledger && ledger[id].returnedAt.Some? ==> ledger[id].createdAt <= ledger[id].returnedAt.value
  }
}

=== FILE: views.dfy ===
/** What the pages receive from the routes once the JSON is read back: only
    the fields their computations use. */
module Views {
  import opened Prelude
  import opened Models

  /** A loan as the dashboard and the return page see it. The pages declare
      the due date optional; a due date that is present is read as an instant. */
  datatype LoanRow = LoanRow(returned: bool, dueDate: Option<Millis>)

  /** A book as the borrow page sees it. */
  datatype BookRow = BookRow(id: Id, title: string, author: string, available: bool)

  /** The row a stored loan record becomes: its due date is always present. */
  function LoanRowOf(e: Entry): LoanRow
  {
    LoanRow(e.returned, Some(e.dueDate))
  }

  /** The rows of a listing, in its order. */
  function LoanRows(entries: seq<Entry>): (r: seq<LoanRow>)
    ensures |r| == |entries|
    ensures forall i :: 0 <= i < |r| ==> r[i] == LoanRowOf(entries[i])
  {
    seq(|entries|, i requires 0 <= i < |entries| => LoanRowOf(entries[i]))
  }

  /** The row a stored book becomes. */
  function BookRowOf(id: Id, b: Book): BookRow
  {
    BookRow(id, b.title, b.author, b.available)
  }
}
